=== FILE: README.md ===
# Vulkan start-up selection and validation, modelled in Dafny

This project models the start-up logic of the GLFW/Vulkan example application.
That logic decides whether the application may create a Vulkan instance and a
logical device, and on which physical device. It covers:

- the validation-layer check and the instance-extension check that guard
  `createVulkanInstance`, and the ordered list of required instance extensions;
- the device-extension check (a set difference);
- `findQueueFamilies`, a linear scan over a device's queue families. It fills
  an optional graphics index and an optional present index and stops as soon
  as both are set;
- `isDeviceSuitable` and `pickPhysicalDevice`, which choose the first suitable
  device in enumeration order;
- the part of `createLogicalDevice` that builds one queue create info per
  distinct queue family;
- the `Vertex` equality and the application's configuration constants.

Every Vulkan or GLFW call is replaced by its result, given as plain input:

- a status code plus the items of each two-call enumeration;
- for each queue family, its queue count, its graphics bit, and the status and
  flag of the surface-support query;
- for each device, the names of its extensions.

Every `std::runtime_error` becomes a `Failure` of a `Result`. The
`std::bad_optional_access` that `.value()` on an empty index would raise is a
`Failure` too.

Modules, one file each:

- `Results` (`results.dfy`): `Option` and `Result`.
- `Vulkan` (`vulkan.dfy`): `VkResult`, `Enumeration`, `QueueFamily`,
  `PhysicalDevice`, and the error type.
- `Config` (`config.dfy`): the constants `validationLayers`,
  `logicalDeviceExtensions`, `enableValidationLayers` and
  `MAX_FRAMES_IN_FLIGHT` = 2.
- `Support` (`support.dfy`): the layer and extension checks.
- `QueueFamilies` (`queue_families.dfy`): the scan, plus a reference
  description of its outcome that does not use the scan.
- `DeviceSelection` (`device_selection.dfy`): suitability, device choice, the
  logical-device request and the `initVulkan` sequence.
- `Vertices` (`vertex.dfy`): `Vertex`.

The queue-family scan has a reference description that does not scan. The
scan examines the shortest prefix of the families that holds one graphics
family and one present family (`ExaminedCount`), or all families when no
prefix does. Within that prefix, the result is one of two things:

- the error of the first failed surface-support query;
- otherwise, the LAST family serving each role (`LastServing`). The graphics
  index is overwritten while the scan continues.

`ScanMatchesReference` proves that the scan and the reference agree on every
input.

## Model

| member | source | states |
|---|---|---|
| Support.CheckValidationLayerSupport | src/application.cpp:101-138 | When either layer enumeration fails, the matching error is raised. When both succeed, the result is true exactly when every required layer name equals some available layer name. |
| Support.RequiredInstanceExtensions | src/application.cpp:140-168 | Keeps the list it already holds and appends, in order: the window system's extensions, then VK_KHR_portability_enumeration, then VK_EXT_debug_utils as the last entry when validation is on. The length grows by one more when validation is on. |
| Support.DebugUtilsRequestedIffValidation | src/application.cpp:152-158 | Starting from an empty list, and when the window system does not ask for it, the debug-utils extension is required if and only if validation is on. The portability-enumeration extension is always required. |
| Support.CheckInstanceExtensionSupport | src/application.cpp:170-225 | Enumeration failures raise the matching error. Otherwise the result is true exactly when every required extension name occurs among the available ones. The inner scan has no early exit, which does not change the result. |
| Support.CheckDeviceExtensionSupport | src/application.cpp:324-341 | Takes the required set minus the available names. The result is empty exactly when every required device extension is offered. The status of the device enumeration is never consulted, and the model raises no error here. |
| Support.PrepareInstance | src/application.cpp:58-89 | The layer check runs only when validation is enabled. Then the extension check runs. Each enumeration failure and each missing name gives its own error, in that order. On success, the request always enables the validation-layer list, even in builds without validation. It carries exactly the required extensions and the portability flag, and chains the debug messenger if and only if validation is on. |
| QueueFamilies.FindQueueFamilies | src/application.cpp:352-394 | Any returned graphics index is below the family count and names a family with queueCount > 0 and the graphics bit. Any returned present index names a family with queueCount > 0 and present support. Every error is a failed surface-support query. |
| QueueFamilies.RecordExtendsLastServing | src/application.cpp:372-383 | One loop iteration turns the last serving family among the first n into the last serving family among the first n+1, for both roles. |
| QueueFamilies.ScanFromMatchesReference | src/application.cpp:361-391 | Started at any family the scan actually reaches, with the indices the earlier families produce, the loop ends in the reference outcome. |
| QueueFamilies.ScanMatchesReference | src/application.cpp:352-394 | The scan returns exactly the reference outcome. That is the first failed surface-support query among the examined families, or else the last examined family serving each role. The examined families form the shortest prefix covering both roles, or all of them. |
| QueueFamilies.StopsAtFirstCoveringFamily | src/application.cpp:385-388 | With a complete result, let k be the index of the last family the scan examined. Then one of the two indices equals k and neither exceeds it, and no prefix that stops before family k covers both roles, so the scan breaks at the first family that completes both. |
| QueueFamilies.LaterFamiliesIgnored | src/application.cpp:362-391 | When the scan stops early, replacing every family after the examined prefix with anything leaves the result unchanged. |
| QueueFamilies.GraphicsIndexOverwritten | src/application.cpp:372-383 | Families (graphics only, graphics only, present only) give graphics index 1, not 0, and present index 2. |
| DeviceSelection.IsDeviceSuitable | src/application.cpp:343-350 | Suitable if and only if the queue-family result is complete. A failed surface-support query propagates unchanged: the error is exactly the one the queue-family scan raised. |
| DeviceSelection.SuitableIffBothRolesServed | src/application.cpp:343-350 | A device is suitable exactly when some family serves graphics and some family serves presentation, and no surface-support query fails among the families the scan examines. |
| DeviceSelection.SuitabilityIgnoresExtensions | src/application.cpp:347-349 | Changing a device's extension list never changes its suitability verdict. |
| DeviceSelection.SuitableWithoutSwapchainExtension | src/application.cpp:343-350 | Take a device with no extensions and one family that serves both roles. It fails the device-extension check, yet it is suitable. |
| DeviceSelection.PickPhysicalDevice | src/application.cpp:284-322 | A failed count call and a failed list call each raise their own error. Zero devices raise "no GPU with Vulkan support". Otherwise the first device not judged unsuitable decides the outcome: its index when it is suitable, its surface-query error when the check fails. Any returned index names a suitable device with every earlier device judged unsuitable. "No suitable GPU" is raised exactly when all devices are judged unsuitable. |
| DeviceSelection.SortedElements | src/application.cpp:402-406 | The visiting order of the std::set of family indices: strictly ascending, with exactly the set's elements. Its helper `MinimumExists` shows that every non-empty set of indices has a least element, which is visited first. |
| DeviceSelection.UniquePairOrder | src/application.cpp:402-406 | The set {graphicsFamily, presentFamily} is visited as one element when the two are equal, otherwise as the smaller then the larger. |
| DeviceSelection.QueueCreateInfos | src/application.cpp:396-412 | Succeeds exactly when both indices are set, since `.value()` throws otherwise. It builds one info per distinct value in {graphicsFamily, presentFamily}, so 1 info when they are equal and 2 otherwise. Each info has queue count 1. The first info names the smaller family and the last names the larger. |
| DeviceSelection.LogicalDeviceRequest | src/application.cpp:396-438 | Succeeds exactly when the device's queue-family result is complete. The graphics and present queues are the families that scan chose, so they serve those roles. The queue create infos are exactly the ones `QueueCreateInfos` builds from those indices. The request enables the platform's device extensions, and enables the validation layers exactly when validation is on (none otherwise). |
| DeviceSelection.SuitableDeviceHasQueues | src/application.cpp:398-404 | For a device judged suitable, building the logical-device request cannot fail. |
| DeviceSelection.InitVulkan | src/application.cpp:24-31 | Start-up succeeds if and only if every check passes: the layer gate, both instance-extension calls, the required instance extensions, both device-enumeration calls, and some device that is suitable with every earlier device judged unsuitable. A successful start-up also implies the following. The validation layers are available when validation is on, and the required instance extensions are available. The chosen device is the first suitable one. The logical-device request is the one built for that device. A layer-enumeration error can only occur when validation is on. |
| Config.DeviceExtensions | include/application.hpp:255-259 | The device-extension list has two entries on Apple builds and one otherwise. It always ends with VK_KHR_swapchain and has no duplicates. It contains VK_KHR_portability_subset, listed first, if and only if the build is for Apple. |
| Vertices.SameVertex | include/application.hpp:94-97 | Two vertices compare equal exactly when they are the same record, that is, when position, colour and texture coordinates are all equal. |

The constants are `Config.ValidationLayers` (= ["VK_LAYER_KHRONOS_validation"],
include/application.hpp:237), `Config.ValidationEnabled` (true exactly when
`NDEBUG` is not defined, include/application.hpp:231-235) and
`Config.MaxFramesInFlight` (= 2, include/application.hpp:217). The predicate
`QueueFamilies.QueueFamilyIndices.IsComplete` models `isComplete`
(include/application.hpp:40-43): it is true exactly when both indices hold a
value.

Two quirks of the code are modelled as written:

- `isDeviceSuitable` computes device-extension support and discards it
  (src/application.cpp:347-349). A device lacking `VK_KHR_swapchain` can
  therefore be chosen. `SuitabilityIgnoresExtensions` and
  `SuitableWithoutSwapchainExtension` pin this down.
- The instance create info enables the validation layers in every build
  (src/application.cpp:80-81). Only the availability check is skipped when
  validation is off.

## Left out

- Window creation, the event-polling loop and shutdown
  (src/application.cpp:16-56): window-system I/O and resource destruction.
- The foreign calls and their failures: `vk::createInstance`
  (src/application.cpp:91-98), `createDevice` and `getQueue`
  (src/application.cpp:431-438), and surface creation
  (src/application.cpp:441-448). Only the requests handed to them are
  modelled.
- The debug-messenger functions and callback (src/application.cpp:227-282):
  foreign function lookups and console output.
- All console printing of extension and device names: output only.
- The value of the `vk::InstanceCreateFlags` is reduced to a boolean
  `enumeratePortability`. The queue priority 1.0f is dropped: it is a float
  constant that no decision depends on. The enabled-features struct of the
  device create info (src/application.cpp:417, an all-default
  `vk::PhysicalDeviceFeatures`) is dropped too: it requests no feature and
  no decision depends on it.
- Layer and extension names are whole strings. The fixed-size `char` arrays
  of the Vulkan property structures, and any truncation they imply, are not
  modelled.
- Each enumeration reports its count as the length of its item list. A driver
  whose two calls disagree on the count is not modelled.
- Family indices are unbounded naturals. The `uint32_t` width of the indices
  and counts never matters for realistic family counts.
- `createLogicalDevice` scans the chosen device's families a second time. The
  model gives that scan the same inputs as the first, so a driver that answers
  differently the second time is not modelled.
- In `checkDeviceExtensionSupport` the count variable is uninitialised and the
  status of the count call is discarded (src/application.cpp:326-330). If that
  call fails, the vector is sized from an indeterminate value, and a
  `length_error` or `bad_alloc` could escape `isDeviceSuitable`. The model
  assumes a well-defined extension list, so this failure path is not
  modelled.
- `VertexHasher` (include/application.hpp:102-108) depends on glm's hash,
  which is not part of this model. Float equality of the glm components (NaN,
  signed zero) is not modelled either: components are compared with an
  abstract equality.
- The members only declared in include/application.hpp:152-215 have no
  implementation in the source: swapchain choice and rebuild, drawFrame,
  buffers, mipmaps and model loading. The frame loop that would use
  `MAX_FRAMES_IN_FLIGHT` is among them.
- The exit-code wrapper of `main` (src/main.cpp:3-17) is plumbing.
- DeviceSelection.InitVulkan: its contract states exactly when start-up
  succeeds, and two error facts. When start-up fails, it does not name
  which error is raised. `PrepareInstance` and `PickPhysicalDevice` state
  their own error outcomes case by case, and `initVulkan` runs them in that
  order.

=== FILE: config.dfy ===
/** Compile-time configuration of the application: the build flags it reads
    and the constant lists declared in the `Application` class. */
module Config {

  /** The platform macro the device-extension list depends on (`__APPLE__`). */
  datatype Platform = Apple | OtherPlatform

  /** The preprocessor state a build is compiled under. */
  datatype Build = Build(ndebugDefined: bool, platform: Platform)

  /** `enableValidationLayers`: validation is on exactly in builds without
      `NDEBUG`. */
  predicate ValidationEnabled(build: Build) {
    !build.ndebugDefined
  }

  /** `MAX_FRAMES_IN_FLIGHT`. */
  const MaxFramesInFlight: nat := 2

  const KhronosValidationLayer: string := "VK_LAYER_KHRONOS_validation"
  const SwapchainExtension: string := "VK_KHR_swapchain"
  const PortabilitySubsetExtension: string := "VK_KHR_portability_subset"
  const PortabilityEnumerationExtension: string := "VK_KHR_portability_enumeration"
  const DebugUtilsExtension: string := "VK_EXT_debug_utils"

  /** `validationLayers`: the layers requested from the instance. */
  const ValidationLayers: seq<string> := [KhronosValidationLayer]

  /** `logicalDeviceExtensions`: the swapchain extension everywhere, preceded
      by the portability-subset extension on Apple builds. */
  function DeviceExtensions(platform: Platform): (r: seq<string>)
    ensures |r| == (if platform == Apple then 2 else 1)
    ensures SwapchainExtension in r
    ensures r[|r| - 1] == SwapchainExtension
    ensures PortabilitySubsetExtension in r <==> platform == Apple
    ensures platform == Apple ==> r[0] == PortabilitySubsetExtension
    ensures forall i, j :: 0 <= i < j < |r| ==> r[i] != r[j]
  {
    match platform
    case Apple => [PortabilitySubsetExtension, SwapchainExtension]
    case OtherPlatform => [SwapchainExtension]
  }
}

=== FILE: device_selection.dfy ===
/** Physical-device choice and the queue part of logical-device creation:
    `isDeviceSuitable`, `pickPhysicalDevice`, `createLogicalDevice`, and the
    start-up sequence of `initVulkan` that ties them to the instance checks. */
module DeviceSelection {
  import opened Results
  import opened Vulkan
  import opened Config
  import opened Support
  import opened QueueFamilies

  /** `isDeviceSuitable`. Device-extension support is computed, as in the
      application, but does not take part in the verdict. */
  function IsDeviceSuitable(device: PhysicalDevice, platform: Platform): (r: Result<bool, StartupError>)
    ensures r.Success? <==> FindQueueFamilies(device.queueFamilies).Success?
    ensures r.Success? ==> (r.value <==> FindQueueFamilies(device.queueFamilies).value.IsComplete())
    ensures r.Failure? ==> r.error.SurfaceSupportQueryFailed?
    ensures r.Failure? ==> r.error == FindQueueFamilies(device.queueFamilies).error
  {
    var indices :- FindQueueFamilies(device.queueFamilies);
    var extensionsSupported := CheckDeviceExtensionSupport(DeviceExtensions(platform), device.extensions);
    Success(indices.IsComplete())
  }

  /** A device is suitable exactly when, somewhere among its families, one
      serves graphics and one serves presentation, and no surface-support
      query the scan makes before finding them fails. */
  lemma SuitableIffBothRolesServed(device: PhysicalDevice, platform: Platform)
    ensures var families := device.queueFamilies;
            IsDeviceSuitable(device, platform) == Success(true)
            <==> && (exists g :: 0 <= g < |families| && Serves(families[g], Graphics))
                 && (exists p :: 0 <= p < |families| && Serves(families[p], Present))
                 && FirstFailedQuery(families, 0, ExaminedCount(families)).None?
  {
    var families := device.queueFamilies;
    var n := ExaminedCount(families);
    ScanMatchesReference(families);
    if (exists g :: 0 <= g < |families| && Serves(families[g], Graphics))
       && (exists p :: 0 <= p < |families| && Serves(families[p], Present)) {
      assert CompleteWithin(families, |families|);
      if n == |families| {
        assert CompleteWithin(families, n);
      }
    }
  }

  /** Suitability does not depend on the extensions the device offers. */
  lemma SuitabilityIgnoresExtensions(device: PhysicalDevice, extensions: seq<string>, platform: Platform)
    ensures IsDeviceSuitable(device.(extensions := extensions), platform) == IsDeviceSuitable(device, platform)
  {
  }

  /** A device offering no extension at all, not even the swapchain one the
      logical device is later created with, is still suitable when one family
      serves both roles. */
  lemma SuitableWithoutSwapchainExtension(platform: Platform)
    ensures var device := PhysicalDevice([QueueFamily(1, true, VkSuccess, true)], []);
            && !CheckDeviceExtensionSupport(DeviceExtensions(platform), device.extensions)
            && IsDeviceSuitable(device, platform) == Success(true)
  {
  }

  /** Every device before index `k` was examined and judged unsuitable. */
  predicate RejectedBefore(devices: seq<PhysicalDevice>, k: nat, platform: Platform)
    requires k <= |devices|
  {
    forall j :: 0 <= j < k ==> IsDeviceSuitable(devices[j], platform) == Success(false)
  }

  /** A device that was not rejected, with every device before it rejected,
      is the only such device, and not every device was rejected. */
  lemma FirstVerdictUnique(devices: seq<PhysicalDevice>, i: nat, platform: Platform)
    requires i < |devices|
    requires RejectedBefore(devices, i, platform)
    requires IsDeviceSuitable(devices[i], platform) != Success(false)
    ensures !RejectedBefore(devices, |devices|, platform)
    ensures forall k :: 0 <= k < |devices| && RejectedBefore(devices, k, platform)
                        && IsDeviceSuitable(devices[k], platform) != Success(false)
                        ==> k == i
  {
  }

  /** `pickPhysicalDevice`: enumerate the devices, fail when there are none,
      then take the first suitable one in enumeration order. The result is the
      position of the chosen device in the enumeration. */
  method PickPhysicalDevice(devices: Enumeration<PhysicalDevice>, platform: Platform)
    returns (r: Result<nat, StartupError>)
    ensures devices.countStatus != VkSuccess
            ==> r == Failure(EnumerationFailed(PhysicalDevices, CountCall, devices.countStatus))
    ensures devices.countStatus == VkSuccess && |devices.items| == 0 ==> r == Failure(NoVulkanDevice)
    ensures devices.countStatus == VkSuccess && |devices.items| > 0 && devices.listStatus != VkSuccess
            ==> r == Failure(EnumerationFailed(PhysicalDevices, ListCall, devices.listStatus))
    ensures r.Success? ==>
              && devices.countStatus == VkSuccess && devices.listStatus == VkSuccess
              && r.value < |devices.items|
              && IsDeviceSuitable(devices.items[r.value], platform) == Success(true)
              && RejectedBefore(devices.items, r.value, platform)
    ensures devices.countStatus == VkSuccess && devices.listStatus == VkSuccess && |devices.items| > 0
            ==> (r == Failure(NoSuitableDevice) <==> RejectedBefore(devices.items, |devices.items|, platform))
    ensures devices.countStatus == VkSuccess && devices.listStatus == VkSuccess ==>
              forall k :: 0 <= k < |devices.items| && RejectedBefore(devices.items, k, platform)
                          && IsDeviceSuitable(devices.items[k], platform) != Success(false)
                          ==> r == (if IsDeviceSuitable(devices.items[k], platform).Success? then Success(k)
                                    else Failure(IsDeviceSuitable(devices.items[k], platform).error))
    ensures r.Failure? && r.error.EnumerationFailed? ==> r.error.query == PhysicalDevices
    ensures r.Failure? && r.error.SurfaceSupportQueryFailed? ==>
              exists j :: 0 <= j < |devices.items| && RejectedBefore(devices.items, j, platform)
                          && IsDeviceSuitable(devices.items[j], platform) == Failure(r.error)
  {
    if devices.countStatus != VkSuccess {
      return Failure(EnumerationFailed(PhysicalDevices, CountCall, devices.countStatus));
    }
    if |devices.items| == 0 {
      return Failure(NoVulkanDevice);
    }
    if devices.listStatus != VkSuccess {
      return Failure(EnumerationFailed(PhysicalDevices, ListCall, devices.listStatus));
    }
    var candidates := devices.items;
    var i := 0;
    while i < |candidates|
      invariant 0 <= i <= |candidates|
      invariant RejectedBefore(candidates, i, platform)
    {
      var verdict := IsDeviceSuitable(candidates[i], platform);
      if verdict != Success(false) {
        FirstVerdictUnique(candidates, i, platform);
      }
      if verdict.Failure? {
        return Failure(verdict.error);
      }
      if verdict.value {
        return Success(i);
      }
      i := i + 1;
    }
    // No device was kept, so `physicalDevice` is still null.
    return Failure(NoSuitableDevice);
  }

  /** The elements of a `std::set<uint32_t>` in its iteration order. */
  function SortedElements(s: set<nat>): (r: seq<nat>)
    ensures |r| == |s|
    ensures forall x :: x in r <==> x in s
    ensures forall i, j :: 0 <= i < j < |r| ==> r[i] < r[j]
    decreases |s|
  {
    if s == {} then []
    else
      var m := Minimum(s);
      var rest := SortedElements(s - {m});
      assert forall x :: x in [m] + rest <==> x == m || x in rest;
      [m] + rest
  }

  /** The least element of a non-empty set, the first one a `std::set`
      visits. */
  function Minimum(s: set<nat>): (m: nat)
    requires s != {}
    ensures m in s && forall y :: y in s ==> m <= y
  {
    MinimumExists(s);
    var m :| m in s && forall y :: y in s ==> m <= y;
    m
  }

  /** A non-empty finite set of naturals has a least element. */
  lemma MinimumExists(s: set<nat>)
    requires s != {}
    ensures exists m :: m in s && forall y :: y in s ==> m <= y
  {
    var m := LeastElement(s);
  }

  /** Finds the least element by removing an arbitrary one and comparing it
      with the least of the rest. */
  lemma {:induction false} LeastElement(s: set<nat>) returns (least: nat)
    requires s != {}
    ensures least in s
    ensures forall y :: y in s ==> least <= y
    decreases |s|
  {
    var x :| x in s;
    var rest := s - {x};
    if rest == {} {
      assert s == {x};
      least := x;
    } else {
      var m := LeastElement(rest);
      least := if x < m then x else m;
      forall y | y in s
        ensures least <= y
      {
        if y != x {
          assert y in rest;
        }
      }
    }
  }

  /** One `vk::DeviceQueueCreateInfo` (the priority 1.0 is left out). */
  datatype QueueCreateInfo = QueueCreateInfo(familyIndex: nat, queueCount: nat)

  /** The iteration order of `{graphicsFamily, presentFamily}`: one element
      when the two coincide, otherwise the smaller one first. */
  lemma UniquePairOrder(g: nat, p: nat)
    ensures SortedElements({g, p}) == if g == p then [g] else if g < p then [g, p] else [p, g]
  {
  }

  /** One create info with a single queue for each family, in order. */
  function CreateInfosFor(families: seq<nat>): (infos: seq<QueueCreateInfo>)
    ensures |infos| == |families|
    ensures forall k :: 0 <= k < |infos| ==> infos[k] == QueueCreateInfo(families[k], 1)
  {
    if families == [] then [] else [QueueCreateInfo(families[0], 1)] + CreateInfosFor(families[1..])
  }

  /** The queue-create-info part of `createLogicalDevice`: one info with one
      queue per distinct family among the graphics and present families, in
      the ascending order a `std::set` visits them. Reading an empty index with
      `.value()` throws, which is the error outcome. */
  function QueueCreateInfos(indices: QueueFamilyIndices): (r: Result<seq<QueueCreateInfo>, StartupError>)
    ensures r.Success? <==> indices.IsComplete()
    ensures r.Success? ==>
              var g := indices.graphicsFamily.value;
              var p := indices.presentFamily.value;
              && |r.value| == (if g == p then 1 else 2)
              && (forall k :: 0 <= k < |r.value| ==> r.value[k].queueCount == 1)
              && r.value[0].familyIndex == (if g < p then g else p)
              && r.value[|r.value| - 1].familyIndex == (if g < p then p else g)
  {
    if !indices.IsComplete() then Failure(MissingQueueFamily)
    else
      var g := indices.graphicsFamily.value;
      var p := indices.presentFamily.value;
      UniquePairOrder(g, p);
      Success(CreateInfosFor(SortedElements({g, p})))
  }

  /** What `createLogicalDevice` passes to `createDevice` and `getQueue`. */
  datatype DeviceRequest = DeviceRequest(
    queueCreateInfos: seq<QueueCreateInfo>,
    extensions: seq<string>,
    layers: seq<string>,
    graphicsQueueFamily: nat,
    presentQueueFamily: nat)

  /** `createLogicalDevice` up to the foreign `createDevice` call: scan the
      chosen device's families again, build the queue create infos, enable the
      platform's device extensions, and the validation layers only when
      validation is on. */
  function LogicalDeviceRequest(device: PhysicalDevice, build: Build): (r: Result<DeviceRequest, StartupError>)
    ensures r.Success? <==> FindQueueFamilies(device.queueFamilies).Success?
                            && FindQueueFamilies(device.queueFamilies).value.IsComplete()
    ensures r.Success? ==>
              && r.value.graphicsQueueFamily < |device.queueFamilies|
              && Serves(device.queueFamilies[r.value.graphicsQueueFamily], Graphics)
              && r.value.presentQueueFamily < |device.queueFamilies|
              && Serves(device.queueFamilies[r.value.presentQueueFamily], Present)
              && |r.value.queueCreateInfos| == (if r.value.graphicsQueueFamily == r.value.presentQueueFamily then 1 else 2)
              && r.value.graphicsQueueFamily == FindQueueFamilies(device.queueFamilies).value.graphicsFamily.value
              && r.value.presentQueueFamily == FindQueueFamilies(device.queueFamilies).value.presentFamily.value
              && Success(r.value.queueCreateInfos) == QueueCreateInfos(FindQueueFamilies(device.queueFamilies).value)
              && r.value.extensions == DeviceExtensions(build.platform)
              && (r.value.layers == ValidationLayers <==> ValidationEnabled(build))
              && (r.value.layers == [] <==> !ValidationEnabled(build))
  {
    var indices :- FindQueueFamilies(device.queueFamilies);
    var infos :- QueueCreateInfos(indices);
    Success(DeviceRequest(
      infos,
      DeviceExtensions(build.platform),
      if ValidationEnabled(build) then ValidationLayers else [],
      indices.graphicsFamily.value,
      indices.presentFamily.value))
  }

  /** The `.value()` reads of `createLogicalDevice` cannot throw for a device
      `pickPhysicalDevice` accepted. */
  lemma SuitableDeviceHasQueues(device: PhysicalDevice, build: Build)
    requires IsDeviceSuitable(device, build.platform) == Success(true)
    ensures LogicalDeviceRequest(device, build).Success?
  {
  }

  /** The environment start-up reads: instance layers and extensions, the
      window system's extension list, and the physical devices. */
  datatype Environment = Environment(
    layers: Enumeration<string>,
    windowExtensions: seq<string>,
    instanceExtensions: Enumeration<string>,
    devices: Enumeration<PhysicalDevice>)

  /** What a successful start-up produces. */
  datatype StartupPlan = StartupPlan(instance: InstanceRequest, deviceIndex: nat, device: DeviceRequest)

  /** `initVulkan` without its foreign steps (instance, debug messenger and
      surface creation): instance checks, device choice, logical-device
      request, each failure ending start-up. */
  method InitVulkan(build: Build, env: Environment) returns (r: Result<StartupPlan, StartupError>)
    ensures r.Success? ==>
              && (ValidationEnabled(build) ==> AllAvailable(ValidationLayers, env.layers.items))
              && AllAvailable(RequiredInstanceExtensions([], env.windowExtensions, ValidationEnabled(build)),
                              env.instanceExtensions.items)
              && r.value.deviceIndex < |env.devices.items|
              && IsDeviceSuitable(env.devices.items[r.value.deviceIndex], build.platform) == Success(true)
              && RejectedBefore(env.devices.items, r.value.deviceIndex, build.platform)
              && Success(r.value.device) == LogicalDeviceRequest(env.devices.items[r.value.deviceIndex], build)
    ensures r.Success? <==>
              && LayerGatePasses(ValidationEnabled(build), env.layers)
              && Enumerated(env.instanceExtensions, InstanceExtensions).Success?
              && AllAvailable(RequiredInstanceExtensions([], env.windowExtensions, ValidationEnabled(build)),
                              env.instanceExtensions.items)
              && env.devices.countStatus == VkSuccess && env.devices.listStatus == VkSuccess
              && exists k :: 0 <= k < |env.devices.items| && RejectedBefore(env.devices.items, k, build.platform)
                             && IsDeviceSuitable(env.devices.items[k], build.platform) == Success(true)
    ensures !ValidationEnabled(build) && env.instanceExtensions.countStatus != VkSuccess
            ==> r == Failure(EnumerationFailed(InstanceExtensions, CountCall, env.instanceExtensions.countStatus))
    ensures r.Failure? && r.error.EnumerationFailed? && r.error.query == InstanceLayers ==> ValidationEnabled(build)
  {
    var instance :- PrepareInstance(ValidationEnabled(build), env.layers, env.windowExtensions, env.instanceExtensions);
    var index :- PickPhysicalDevice(env.devices, build.platform);
    // The chosen device is suitable, so the `.value()` reads cannot throw.
    SuitableDeviceHasQueues(env.devices.items[index], build);
    var device := LogicalDeviceRequest(env.devices.items[index], build).value;
    return Success(StartupPlan(instance, index, device));
  }
}

=== FILE: queue_families.dfy ===
/** `findQueueFamilies`: the linear scan over a device's queue families that
    picks a graphics family and a presentation family, and the reference
    description of what that scan returns. */
module QueueFamilies {
  import opened Results
  import opened Vulkan

  /** `QueueFamilyIndices`: the two optional family indices the scan fills. */
  datatype QueueFamilyIndices = QueueFamilyIndices(graphicsFamily: Option<nat>, presentFamily: Option<nat>) {

    /** `isComplete`: both indices hold a value. */
    predicate IsComplete() {
      graphicsFamily.Some? && presentFamily.Some?
    }
  }

  /** The two jobs a queue family is looked up for. */
  datatype Role = Graphics | Present

  /** A family can do the job: it has at least one queue and the graphics bit,
      or at least one queue and surface presentation support. */
  predicate Serves(family: QueueFamily, role: Role) {
    family.queueCount > 0 &&
    match role
    case Graphics => family.graphics
    case Present => family.presentSupport
  }

  /** Reference: the highest index below `n` whose family serves `role`. */
  function LastServing(families: seq<QueueFamily>, n: nat, role: Role): (r: Option<nat>)
    requires n <= |families|
    ensures r.Some? ==> r.value < n && Serves(families[r.value], role)
    ensures r.Some? ==> forall j :: r.value < j < n ==> !Serves(families[j], role)
    ensures r.None? <==> forall j :: 0 <= j < n ==> !Serves(families[j], role)
  {
    if n == 0 then None
    else if Serves(families[n - 1], role) then Some(n - 1)
    else LastServing(families, n - 1, role)
  }

  /** Among the first `n` families there is one for each role. */
  predicate CompleteWithin(families: seq<QueueFamily>, n: nat)
    requires n <= |families|
  {
    LastServing(families, n, Graphics).Some? && LastServing(families, n, Present).Some?
  }

  /** Helper for `ExaminedCount`: the least `n >= m` at which the first `n`
      families cover both roles, or the family count if none does. */
  function CoveringPrefixFrom(families: seq<QueueFamily>, m: nat): (n: nat)
    requires m <= |families|
    ensures m <= n <= |families|
    ensures forall k :: m <= k < n ==> !CompleteWithin(families, k)
    ensures n == |families| || CompleteWithin(families, n)
    decreases |families| - m
  {
    if m == |families| || CompleteWithin(families, m) then m
    else CoveringPrefixFrom(families, m + 1)
  }

  /** Reference: how many families the scan examines. It is the length of the
      shortest prefix that covers both roles, or every family when no prefix
      does. */
  function ExaminedCount(families: seq<QueueFamily>): (n: nat)
    ensures n <= |families|
    ensures forall m :: 0 <= m < n ==> !CompleteWithin(families, m)
    ensures n == |families| || CompleteWithin(families, n)
  {
    CoveringPrefixFrom(families, 0)
  }

  /** Reference: the first family below `n` whose surface-support query
      failed. */
  function FirstFailedQuery(families: seq<QueueFamily>, from: nat, n: nat): (r: Option<nat>)
    requires from <= n <= |families|
    ensures r.Some? ==> from <= r.value < n && families[r.value].supportStatus != VkSuccess
    ensures r.Some? ==> forall j :: from <= j < r.value ==> families[j].supportStatus == VkSuccess
    ensures r.None? <==> forall j :: from <= j < n ==> families[j].supportStatus == VkSuccess
    decreases n - from
  {
    if from == n then None
    else if families[from].supportStatus != VkSuccess then Some(from)
    else FirstFailedQuery(families, from + 1, n)
  }

  /** Reference outcome of the scan, stated without the scan: the error of the
      first failed surface-support query among the examined families, or else
      the last examined family serving each role. */
  function ReferenceOutcome(families: seq<QueueFamily>): Result<QueueFamilyIndices, StartupError> {
    var n := ExaminedCount(families);
    match FirstFailedQuery(families, 0, n)
    case Some(j) => Failure(SurfaceSupportQueryFailed(families[j].supportStatus))
    case None => Success(QueueFamilyIndices(LastServing(families, n, Graphics), LastServing(families, n, Present)))
  }

  /** One iteration of the loop body: a family with queues overwrites the
      graphics index when it has the graphics bit and the present index when
      the surface can be presented from it. */
  function Record(indices: QueueFamilyIndices, i: nat, family: QueueFamily): QueueFamilyIndices {
    if family.queueCount > 0 then
      QueueFamilyIndices(
        if family.graphics then Some(i) else indices.graphicsFamily,
        if family.presentSupport then Some(i) else indices.presentFamily)
    else indices
  }

  /** The loop of `findQueueFamilies` from family `i` on: query surface
      support (throwing on failure), record the family, and stop as soon as
      both indices are set. */
  function ScanFrom(families: seq<QueueFamily>, i: nat, indices: QueueFamilyIndices)
    : Result<QueueFamilyIndices, StartupError>
    requires i <= |families|
    decreases |families| - i
  {
    if i == |families| then Success(indices)
    else if families[i].supportStatus != VkSuccess then
      Failure(SurfaceSupportQueryFailed(families[i].supportStatus))
    else
      var next := Record(indices, i, families[i]);
      if next.IsComplete() then Success(next) else ScanFrom(families, i + 1, next)
  }

  /** `findQueueFamilies`. Any index it returns names an existing family that
      serves the corresponding role. */
  function FindQueueFamilies(families: seq<QueueFamily>): (r: Result<QueueFamilyIndices, StartupError>)
    ensures r.Failure? ==> r.error.SurfaceSupportQueryFailed? && r.error.code != VkSuccess
    ensures r.Success? && r.value.graphicsFamily.Some? ==>
              r.value.graphicsFamily.value < |families| && Serves(families[r.value.graphicsFamily.value], Graphics)
    ensures r.Success? && r.value.presentFamily.Some? ==>
              r.value.presentFamily.value < |families| && Serves(families[r.value.presentFamily.value], Present)
  {
    ScanMatchesReference(families);
    ScanFrom(families, 0, QueueFamilyIndices(None, None))
  }

  /** Recording family `n` moves each index to the last serving family among
      the first `n + 1`. */
  lemma RecordExtendsLastServing(families: seq<QueueFamily>, n: nat)
    requires n < |families|
    ensures Record(QueueFamilyIndices(LastServing(families, n, Graphics), LastServing(families, n, Present)),
                   n, families[n])
            == QueueFamilyIndices(LastServing(families, n + 1, Graphics), LastServing(families, n + 1, Present))
  {
  }

  /** The scan, started at a family it actually reaches with the indices the
      earlier families produce, ends in the reference outcome. */
  lemma {:induction false} ScanFromMatchesReference(families: seq<QueueFamily>, i: nat)
    requires i < ExaminedCount(families) || i == ExaminedCount(families) == |families|
    requires forall j :: 0 <= j < i ==> families[j].supportStatus == VkSuccess
    ensures ScanFrom(families, i, QueueFamilyIndices(LastServing(families, i, Graphics), LastServing(families, i, Present)))
            == ReferenceOutcome(families)
    decreases |families| - i
  {
    var n := ExaminedCount(families);
    var indices := QueueFamilyIndices(LastServing(families, i, Graphics), LastServing(families, i, Present));
    if i == |families| {
      assert FirstFailedQuery(families, 0, n).None?;
    } else if families[i].supportStatus != VkSuccess {
      assert FirstFailedQuery(families, 0, n) == Some(i);
    } else {
      RecordExtendsLastServing(families, i);
      var next := Record(indices, i, families[i]);
      if next.IsComplete() {
        assert CompleteWithin(families, i + 1);
        assert i + 1 == n;
        assert FirstFailedQuery(families, 0, n).None?;
      } else {
        assert !CompleteWithin(families, i + 1);
        ScanFromMatchesReference(families, i + 1);
      }
    }
  }

  /** `findQueueFamilies` returns exactly the reference outcome. */
  lemma ScanMatchesReference(families: seq<QueueFamily>)
    ensures ScanFrom(families, 0, QueueFamilyIndices(None, None)) == ReferenceOutcome(families)
  {
    ScanFromMatchesReference(families, 0);
  }

  /** The scan stops at the first family `k` at which both indices are set:
      one of them is `k`, and no shorter prefix covers both roles, so no
      family after `k` is examined. */
  lemma StopsAtFirstCoveringFamily(families: seq<QueueFamily>)
    requires FindQueueFamilies(families).Success?
    requires FindQueueFamilies(families).value.IsComplete()
    ensures var indices := FindQueueFamilies(families).value;
            var k := ExaminedCount(families) - 1;
            && 0 <= k
            && (indices.graphicsFamily.value == k || indices.presentFamily.value == k)
            && indices.graphicsFamily.value <= k && indices.presentFamily.value <= k
            && forall m :: 0 <= m <= k ==> !CompleteWithin(families, m)
  {
    ScanMatchesReference(families);
    var n := ExaminedCount(families);
    assert FirstFailedQuery(families, 0, n).None?;
    var g := LastServing(families, n, Graphics).value;
    var p := LastServing(families, n, Present).value;
    var k := if g < p then p else g;
    if k + 1 < n {
      assert LastServing(families, k + 1, Graphics).Some?;
      assert LastServing(families, k + 1, Present).Some?;
      assert CompleteWithin(families, k + 1);
    }
  }

  /** The reference functions look only at the families below their bound. */
  lemma {:induction false} ReferenceOnlyReadsPrefix(families: seq<QueueFamily>, others: seq<QueueFamily>, n: nat)
    requires n <= |families| && n <= |others|
    requires families[..n] == others[..n]
    ensures LastServing(families, n, Graphics) == LastServing(others, n, Graphics)
    ensures LastServing(families, n, Present) == LastServing(others, n, Present)
    ensures FirstFailedQuery(families, 0, n) == FirstFailedQuery(others, 0, n)
    ensures forall m :: 0 <= m <= n ==> (CompleteWithin(families, m) <==> CompleteWithin(others, m))
  {
    if n > 0 {
      assert families[n - 1] == families[..n][n - 1] == others[..n][n - 1] == others[n - 1];
      assert families[..n - 1] == families[..n][..n - 1] == others[..n][..n - 1] == others[..n - 1];
      ReferenceOnlyReadsPrefix(families, others, n - 1);
      FirstFailedQueryOnlyReadsPrefix(families, others, 0, n);
    }
  }

  /** The first failed query below `n` depends only on the first `n` families. */
  lemma {:induction false} FirstFailedQueryOnlyReadsPrefix(families: seq<QueueFamily>, others: seq<QueueFamily>, from: nat, n: nat)
    requires from <= n <= |families| && n <= |others|
    requires families[..n] == others[..n]
    ensures FirstFailedQuery(families, from, n) == FirstFailedQuery(others, from, n)
    decreases n - from
  {
    if from < n {
      assert families[from] == families[..n][from] == others[..n][from] == others[from];
      FirstFailedQueryOnlyReadsPrefix(families, others, from + 1, n);
    }
  }

  /** Families after the examined ones have no influence: replacing them with
      anything leaves the outcome unchanged. */
  lemma LaterFamiliesIgnored(families: seq<QueueFamily>, rest: seq<QueueFamily>)
    requires ExaminedCount(families) < |families|
    ensures FindQueueFamilies(families[..ExaminedCount(families)] + rest) == FindQueueFamilies(families)
  {
    var n := ExaminedCount(families);
    var others := families[..n] + rest;
    assert others[..n] == families[..n];
    ReferenceOnlyReadsPrefix(families, others, n);
    assert CompleteWithin(others, n);
    assert ExaminedCount(others) == n;
    ScanMatchesReference(families);
    ScanMatchesReference(others);
  }

  /** The graphics index is overwritten while the scan continues: with a
      graphics-only family, another graphics-only family and then a
      present-only family, the second one is chosen for graphics. */
  lemma GraphicsIndexOverwritten()
    ensures var graphicsOnly := QueueFamily(1, true, VkSuccess, false);
            var presentOnly := QueueFamily(1, false, VkSuccess, true);
            FindQueueFamilies([graphicsOnly, graphicsOnly, presentOnly])
            == Success(QueueFamilyIndices(Some(1), Some(2)))
  {
  }
}

=== FILE: results.dfy ===
/** Failure-compatible wrappers used in place of the C++ exceptions and
    `std::optional` values of the application. */
module Results {

  /** `std::optional<T>`: a value that may be absent. */
  datatype Option<+T> = None | Some(value: T)

  /** The outcome of a start-up step: either its value, or the error that the
      C++ code would have thrown: a `std::runtime_error`, or the
      `std::bad_optional_access` of `.value()` on an empty index. */
  datatype Result<+T, +E> = Success(value: T) | Failure(error: E) {

    predicate IsFailure() {
      Failure?
    }

    function PropagateFailure<U>(): Result<U, E>
      requires Failure?
    {
      Failure(error)
    }

    function Extract(): T
      requires Success?
    {
      value
    }
  }
}

=== FILE: support.dfy ===
/** The name-containment checks run before the Vulkan instance and the
    logical device are created: validation layers, instance extensions and
    device extensions. */
module Support {
  import opened Results
  import opened Vulkan
  import Config

  /** Every required name occurs among the available names (compared as whole
      strings, as `strcmp` does). */
  predicate AllAvailable(required: seq<string>, available: seq<string>) {
    forall name :: name in required ==> name in available
  }

  /** The items of a two-call enumeration, or the error the application throws
      when either call does not report `eSuccess`. */
  function Enumerated<T>(e: Enumeration<T>, query: Query): (r: Result<seq<T>, StartupError>)
    ensures r.Success? <==> e.countStatus == VkSuccess && e.listStatus == VkSuccess
  {
    if e.countStatus != VkSuccess then Failure(EnumerationFailed(query, CountCall, e.countStatus))
    else if e.listStatus != VkSuccess then Failure(EnumerationFailed(query, ListCall, e.listStatus))
    else Success(e.items)
  }

  /** `checkValidationLayerSupport`: enumerate the instance layers, then look
      each required layer up, stopping at the first one that is missing. */
  method CheckValidationLayerSupport(required: seq<string>, layers: Enumeration<string>)
    returns (r: Result<bool, StartupError>)
    ensures layers.countStatus != VkSuccess
            ==> r == Failure(EnumerationFailed(InstanceLayers, CountCall, layers.countStatus))
    ensures layers.countStatus == VkSuccess && layers.listStatus != VkSuccess
            ==> r == Failure(EnumerationFailed(InstanceLayers, ListCall, layers.listStatus))
    ensures layers.countStatus == VkSuccess && layers.listStatus == VkSuccess
            ==> r == Success(AllAvailable(required, layers.items))
  {
    var available :- Enumerated(layers, InstanceLayers);
    var i := 0;
    while i < |required|
      invariant 0 <= i <= |required|
      invariant forall k :: 0 <= k < i ==> required[k] in available
    {
      var found := false;
      var j := 0;
      while j < |available|
        invariant 0 <= j <= |available|
        invariant !found
        invariant forall m :: 0 <= m < j ==> available[m] != required[i]
      {
        if required[i] == available[j] {
          found := true;
          break;
        }
        j := j + 1;
      }
      if !found {
        assert required[i] !in available;
        return Success(false);
      }
      i := i + 1;
    }
    return Success(true);
  }

  /** `getRequiredInstanceExtensions`: appends, to the list already held, the
      window system's extensions, then the portability-enumeration extension,
      then the debug-utils extension when validation is enabled. The
      application calls it once, on an empty list. */
  function RequiredInstanceExtensions(held: seq<string>, windowExtensions: seq<string>, validation: bool)
    : (r: seq<string>)
    ensures |r| == |held| + |windowExtensions| + 1 + (if validation then 1 else 0)
    ensures r[..|held|] == held
    ensures r[|held|..|held| + |windowExtensions|] == windowExtensions
    ensures r[|held| + |windowExtensions|] == Config.PortabilityEnumerationExtension
    ensures validation ==> r[|r| - 1] == Config.DebugUtilsExtension
  {
    var withPortability := held + windowExtensions + [Config.PortabilityEnumerationExtension];
    if validation then withPortability + [Config.DebugUtilsExtension] else withPortability
  }

  /** The debug-utils extension is requested exactly when validation is on,
      provided the window system does not ask for it itself. */
  lemma DebugUtilsRequestedIffValidation(windowExtensions: seq<string>, validation: bool)
    requires Config.DebugUtilsExtension !in windowExtensions
    ensures Config.DebugUtilsExtension in RequiredInstanceExtensions([], windowExtensions, validation)
            <==> validation
    ensures Config.PortabilityEnumerationExtension in RequiredInstanceExtensions([], windowExtensions, validation)
  {
  }

  /** `checkInstanceExtensionSupport`: enumerate the instance extensions, then
      scan all of them for each required name (the inner scan does not stop
      early), returning false at the first required name not found. */
  method CheckInstanceExtensionSupport(required: seq<string>, extensions: Enumeration<string>)
    returns (r: Result<bool, StartupError>)
    ensures extensions.countStatus != VkSuccess
            ==> r == Failure(EnumerationFailed(InstanceExtensions, CountCall, extensions.countStatus))
    ensures extensions.countStatus == VkSuccess && extensions.listStatus != VkSuccess
            ==> r == Failure(EnumerationFailed(InstanceExtensions, ListCall, extensions.listStatus))
    ensures extensions.countStatus == VkSuccess && extensions.listStatus == VkSuccess
            ==> r == Success(AllAvailable(required, extensions.items))
  {
    var available :- Enumerated(extensions, InstanceExtensions);
    var i := 0;
    while i < |required|
      invariant 0 <= i <= |required|
      invariant forall k :: 0 <= k < i ==> required[k] in available
    {
      var found := false;
      var j := 0;
      while j < |available|
        invariant 0 <= j <= |available|
        invariant found <==> exists m :: 0 <= m < j && available[m] == required[i]
      {
        if required[i] == available[j] {
          found := true;
        }
        j := j + 1;
      }
      if !found {
        assert required[i] !in available;
        return Success(false);
      }
      i := i + 1;
    }
    return Success(true);
  }

  /** `checkDeviceExtensionSupport`: the required names, as a set, minus every
      name the device lists must leave nothing. The status of the device
      enumeration is not checked by the application, so there is no error
      outcome. */
  function CheckDeviceExtensionSupport(required: seq<string>, available: seq<string>): (r: bool)
    ensures r <==> AllAvailable(required, available)
  {
    var missing := (set name | name in required) - (set name | name in available);
    MissingNameWitness(required, available);
    missing == {}
  }

  /** A required name that is not available survives the set difference. */
  lemma MissingNameWitness(required: seq<string>, available: seq<string>)
    ensures !AllAvailable(required, available)
            ==> (set name | name in required) - (set name | name in available) != {}
  {
    if !AllAvailable(required, available) {
      var name :| name in required && name !in available;
      assert name in (set name | name in required) - (set name | name in available);
    }
  }

  /** What `createVulkanInstance` hands to `vk::createInstance` once its checks
      pass. */
  datatype InstanceRequest = InstanceRequest(
    layers: seq<string>,
    extensions: seq<string>,
    enumeratePortability: bool,
    debugMessengerChained: bool)

  /** The layer gate of `createVulkanInstance` lets start-up continue: either
      validation is off (and the layers are not even enumerated), or every
      validation layer is available. */
  predicate LayerGatePasses(validation: bool, layers: Enumeration<string>) {
    validation ==> Enumerated(layers, InstanceLayers).Success? && AllAvailable(Config.ValidationLayers, layers.items)
  }

  /** The checks and create-info assembly of `createVulkanInstance`: the layer
      check runs only when validation is enabled, the extension check always
      runs, and the create info then enables the validation layers whatever the
      build. */
  method PrepareInstance(
    validation: bool,
    layers: Enumeration<string>,
    windowExtensions: seq<string>,
    extensions: Enumeration<string>)
    returns (r: Result<InstanceRequest, StartupError>)
    ensures validation && Enumerated(layers, InstanceLayers).Failure?
            ==> r == Enumerated(layers, InstanceLayers).PropagateFailure()
    ensures validation && Enumerated(layers, InstanceLayers).Success?
            && !AllAvailable(Config.ValidationLayers, layers.items)
            ==> r == Failure(ValidationLayersUnavailable)
    ensures LayerGatePasses(validation, layers) && Enumerated(extensions, InstanceExtensions).Failure?
            ==> r == Enumerated(extensions, InstanceExtensions).PropagateFailure()
    ensures LayerGatePasses(validation, layers) && Enumerated(extensions, InstanceExtensions).Success?
            && !AllAvailable(RequiredInstanceExtensions([], windowExtensions, validation), extensions.items)
            ==> r == Failure(InstanceExtensionsUnavailable)
    ensures r.Success? <==>
              && LayerGatePasses(validation, layers)
              && Enumerated(extensions, InstanceExtensions).Success?
              && AllAvailable(RequiredInstanceExtensions([], windowExtensions, validation), extensions.items)
    ensures r.Success? ==>
              && r.value.layers == Config.ValidationLayers
              && r.value.extensions == RequiredInstanceExtensions([], windowExtensions, validation)
              && r.value.enumeratePortability
              && (r.value.debugMessengerChained <==> validation)
  {
    if validation {
      var layersSupported :- CheckValidationLayerSupport(Config.ValidationLayers, layers);
      if !layersSupported {
        return Failure(ValidationLayersUnavailable);
      }
    }
    var required := RequiredInstanceExtensions([], windowExtensions, validation);
    var extensionsSupported :- CheckInstanceExtensionSupport(required, extensions);
    if !extensionsSupported {
      return Failure(InstanceExtensionsUnavailable);
    }
    return Success(InstanceRequest(Config.ValidationLayers, required, true, validation));
  }
}

=== FILE: vertex.dfy ===
/** The `Vertex` record and its `operator==`. The glm vector types are kept
    abstract: `Vec3` stands for `glm::vec3` and `Vec2` for `glm::vec2`, each
    compared with its own equality. */
module Vertices {

  datatype Vertex<Vec3, Vec2> = Vertex(position: Vec3, color: Vec3, textureCoordinates: Vec2)

  /** `Vertex::operator==`: component-wise comparison of position, colour and
      texture coordinates. It coincides with equality of the whole record. */
  function SameVertex<Vec3(==), Vec2(==)>(a: Vertex<Vec3, Vec2>, b: Vertex<Vec3, Vec2>): (equal: bool)
    ensures equal <==> a == b
  {
    a.position == b.position && a.color == b.color && a.textureCoordinates == b.textureCoordinates
  }
}

=== FILE: vulkan.dfy ===
/** What the start-up code receives from the Vulkan and GLFW libraries, reduced
    to plain values: status codes, enumerated name lists, queue-family records
    and physical devices. The library calls themselves are not modelled; only
    their results are. */
module Vulkan {

  /** A `vk::Result`. The application compares every status against
      `eSuccess` only, so the positive status `eIncomplete` is a failure for
      it just like a negative error code. */
  datatype VkResult = VkSuccess | VkIncomplete | VkError(code: int)

  /** The two-call enumeration idiom (`vkEnumerate*(&count, nullptr)` then
      `vkEnumerate*(&count, data)`): the status of each call and the items the
      second call filled in. The count reported by the first call is
      `|items|`. */
  datatype Enumeration<T> = Enumeration(countStatus: VkResult, listStatus: VkResult, items: seq<T>)

  /** One entry of `getQueueFamilyProperties`, together with the answer of
      `getSurfaceSupportKHR` for that family index: the status of the query and
      the `presentSupport` flag it wrote. */
  datatype QueueFamily = QueueFamily(
    queueCount: nat,
    graphics: bool,
    supportStatus: VkResult,
    presentSupport: bool)

  /** A `vk::PhysicalDevice` as far as start-up selection can observe it: its
      queue families and the names `enumerateDeviceExtensionProperties` lists. */
  datatype PhysicalDevice = PhysicalDevice(queueFamilies: seq<QueueFamily>, extensions: seq<string>)

  /** Which enumeration a failed status came from. */
  datatype Query = InstanceLayers | InstanceExtensions | PhysicalDevices

  /** Which of the two calls of the enumeration idiom failed. */
  datatype Stage = CountCall | ListCall

  /** Every `std::runtime_error` (and the one `std::bad_optional_access`) the
      modelled start-up code can raise. */
  datatype StartupError =
    | EnumerationFailed(query: Query, stage: Stage, code: VkResult)
    | ValidationLayersUnavailable
    | InstanceExtensionsUnavailable
    | NoVulkanDevice
    | NoSuitableDevice
    | SurfaceSupportQueryFailed(code: VkResult)
    | MissingQueueFamily
}
